=== FILE: README.md ===
# Instagram-clone client shell: session, route gate and optimistic handlers

A Dafny model of the logic inside the React shell `src/App.js` of an
Instagram-style client. Beneath the presentational components the file
holds a few pieces of sequential logic, and the model states each as
pure functions over immutable values:

- **Session** (`session.dfy`): the `token`, `user` and `isAuthLoading` state of
  `App`, and its copy in `localStorage` under `authToken` and `authUser`.
  The model covers the state at mount, `login`, `logout` and the token
  check `verifyTokenAndLoadUser`. The store is a `map<string, string>`.
  JavaScript truthiness is kept: an empty token string counts as no token,
  and an empty stored user record counts as no record.
- **Access gate** (`access_gate.dfy`): the route table, the `ProtectedRoute`
  wrapper and the full-page loader. Together they map a requested path
  and the session to one of four results: render, redirect to `/login`,
  redirect to `/`, or loader.
- **Likes** (`likes.dfy`), **comments** (`comments.dfy`) and **follows**
  (`follow.dfy`): each handler is split into an optimistic `Apply` step and
  a `Settle` step. `Apply` returns what a rollback needs. `Settle` takes
  the remote outcome (`Success | Failure`) as an explicit input, because
  the `catch` blocks define the rollback. Running the two steps
  back to back is `Toggle` / `Submit`.
- **Helpers**: `timeAgo` (`time_ago.dfy`) as integer bucketing into y/mo/d/h/m/s.
  JavaScript's `trim` (`text.dfy`) and decimal number rendering and reading back (`decimal.dfy`). A small
  quoted-field codec (`user_codec.dfy`) stands in for
  `JSON.stringify`/`JSON.parse` of the user record. `Decode` returning
  `None` plays the role of `JSON.parse` throwing.

The model follows the code as written; in particular:

- Likes are a boolean plus a counter, not a set of likers.
- The like handler has no in-flight guard. Only the comment and follow
  handlers have one. `Likes.OverlappingToggles` shows what an overlap does.
- A failed comment restores the input text.
- The gate tests `token`, not `user`.
- The like, comment and follow handlers never turn an "unauthorized"
  answer into a forced logout: their `catch` blocks only roll back. Only
  the token check's `catch` signs out, on any failure.
- A successful comment keeps its temporary record. The swap for the
  server's record is commented out in the source.

## Model

| member | source | states |
|---|---|---|
| `TimeAgo.ElapsedSeconds` | src/App.js:44 | the whole seconds between two millisecond instants, rounded toward negative infinity like `Math.floor` |
| `TimeAgo.Bucket` | src/App.js:43-56 | picks the coarsest unit the age strictly exceeds and counts whole units: the count is at least 1 and brackets the age. Ages of 60 seconds or less, negative ones included, come out as the age itself in seconds |
| `TimeAgo.BucketIsTableScan` | src/App.js:45-55 | the comparison chain equals a first-match scan of the table 31536000 y, 2592000 mo, 86400 d, 3600 h, 60 m, with seconds as the fallback |
| `TimeAgo.BucketMonotone` | src/App.js:43-56 | an older date never gets a finer unit, and within one unit never a smaller count |
| `Decimal.NatToString` | src/App.js:46 | the rendering `Math.floor(interval) + "y"` performs for a whole number: a non-empty string of decimal digits, with no leading zero except for 0 itself |
| `Decimal.DigitsRoundTrip` | src/App.js:46 | reading back the decimal rendering of a whole number gives that number |
| `Decimal.IntToString` | src/App.js:55 | the rendering of a possibly negative count: a leading `-` exactly for negative numbers, then the digits of the magnitude with no leading zero and never `-0`; the text reads back as the same integer |
| `Decimal.CanonicalDigits` | src/App.js:46 | a digit string without a superfluous leading zero is the rendering of the number it denotes |
| `Decimal.CanonicalUnique` | src/App.js:46-55 | the rendering of an integer is the only sign-and-digits text without leading zeros that reads back as it |
| `TimeAgo.Render` | src/App.js:46-55 | the text ends with the unit's suffix, the part before it is the count in decimal without leading zeros, and the text reads back as the same count and unit |
| `TimeAgo.TimeAgo` | src/App.js:43-56 | the text `timeAgo` returns reads as a count of the coarsest unit the elapsed whole seconds strictly exceed, with the count bracketing the age; an age of at most a minute reads as the seconds themselves. The text is exactly the rendering of that count and unit |
| `Text.Trim` | src/App.js:353 | `trim()` yields a slice of the input with only whitespace cut from both ends, and it starts and ends with non-whitespace |
| `Text.TrimEmptyIffBlank` | src/App.js:353 | `!comment.trim()` holds exactly when the input is all whitespace |
| `UserCodec.DecodeIffEncode` | src/App.js:877-882 | reading the stored user record gives back the user that was written, and only that user's encoding reads as that user |
| `Session.Mount` | src/App.js:847-849 | at start the token is whatever the store holds, no user is known and the token check is pending. Store and memory agree |
| `Session.ClearAuth` | src/App.js:888-891 | both session keys leave the store and token and user leave memory. Every other key is unchanged |
| `Session.Login` | src/App.js:913-920 | the store holds the token and a record that reads back as the user. Memory holds the same token and user. Other keys and the loading flag are unchanged |
| `Session.Logout` | src/App.js:922-930 | from any state: neither key is stored, token and user are null, other keys and the loading flag are unchanged |
| `Session.CheckSettles` | src/App.js:866-893 | the check after its remote step, reading the store as it is then: if the step fails, everything is signed out. If it succeeds, the stored record becomes the user; with no record the fallback user is used and written back; an unreadable record signs out. The token is not looked at again. Loading ends on every path, and store–memory agreement is kept |
| `Session.Verify` | src/App.js:858-896 | the check with nothing happening while it waits: with no token the user is dropped and nothing else changes; with one, it settles as `CheckSettles` states. Loading ends on every path, and store–memory agreement is kept |
| `Session.StaleCheckUndoesLogout` | src/App.js:860-882 | as written, a check started by a login that settles after a `logout` stores the fallback record and signs that user in with no token, while the guarded `Resume` leaves the logout in place |
| `Session.Resume` | src/App.js:858-896 | a late check whose token is unchanged settles exactly as the uninterrupted check; one whose token changed does nothing; after a `logout` nothing changes; store–memory agreement is kept |
| `Session.LogoutSurvivesStaleChecks` | src/App.js:922-926 | for the corrected check of "## Findings" (the token-guarded `Resume`), not the code as written: whatever came before, a `logout` followed only by late-settling guarded checks leaves no session key stored and no token or user in memory |
| `Session.RunKeepsMirror` | src/App.js:847-930 | after any sequence of logins, logouts, uninterrupted token checks, late checks settling as the code settles them (`StaleEvent`) and late checks under the token guard of `Resume` (`ResumeEvent`) from mount, the stored token equals the token in memory and the stored record reads back as the user in memory |
| `Session.RunFromMirrored` | src/App.js:858-930 | the same agreement holds after any such sequence, unguarded late checks included, starting from any state where it already held |
| `Session.RunEndingInLogout` | src/App.js:922-926 | whatever came before, a run ending in `logout` leaves no session key stored and no token or user in memory |
| `Session.LoginThenVerify` | src/App.js:858-920 | a token check after a login with a non-empty token keeps the same user (success) or signs out (failure). An empty token is falsy, so the check drops the user |
| `AccessGate.Classify` | src/App.js:947-962 | `/login`, `/signup`, `/`, each static protected route and the two-segment `/p/:postId` are recognised exactly, each as its own screen (`/p/x` as the post `x`). A single segment is a profile exactly when it is not a static route. Any other path is unknown |
| `AccessGate.ClassifyPathOf` | src/App.js:951-958 | every protected screen's own path leads back to it, except a profile whose username equals a static route |
| `AccessGate.ProtectedRoute` | src/App.js:830-842 | loader exactly while loading. Once loaded, renders exactly when there is a token and otherwise redirects to `/login` |
| `AccessGate.Gate` | src/App.js:932-962 | loader exactly while loading, and never a redirect then. A protected view renders if there is a token and otherwise goes to `/login`. `/login` and `/signup` go to `/` if there is a token and otherwise render. An unknown path goes to `/` or to `/login` depending on the token |
| `AccessGate.GateRendersOnlyAllowed` | src/App.js:932-962 | a screen renders only where it belongs: a protected one with a token, login and signup without one, an unknown path never |
| `AccessGate.GateIgnoresUser` | src/App.js:831-838 | the decision depends only on the token's truthiness and the loading flag, never on the user |
| `AccessGate.RedirectsSettle` | src/App.js:947-962 | the target of every redirect renders, so a navigation is never redirected twice |
| `AccessGate.NoStoredTokenRedirectsToLogin` | src/App.js:858-864 | with no stored token, every protected screen redirects to `/login` once the check has run |
| `AccessGate.AcceptedTokenRedirectsHome` | src/App.js:866-893 | if the stored token is accepted and the stored record is readable or absent, `/login` and `/signup` redirect to `/` and protected screens render |
| `AccessGate.LogoutClosesProtectedScreens` | src/App.js:922-930 | after `logout` (not loading) protected screens redirect to `/login` and the login screen renders |
| `Likes.Init` | src/App.js:312-313 | the count is the number of likers, the flag is set iff the signed-in user's id is among them, and the state is valid (count >= 0, liked implies count >= 1) |
| `Likes.Apply` | src/App.js:326-334 | without a user nothing changes and nothing is pending. With one, the flag flips, the count moves by one toward the new flag, the previous state is kept for rollback, and validity is preserved |
| `Likes.Settle` | src/App.js:336-348 | failure restores the snapshot exactly, success keeps the current state, and validity is preserved |
| `Likes.ToggleOutcomes` | src/App.js:326-349 | a failed toggle, or one with no user, leaves the state exactly as it was. A successful one flips the flag and changes the count by exactly -1 or +1 |
| `Likes.ToggleKeepsValid` | src/App.js:312-349 | count >= 0 and (liked implies count >= 1) hold after every toggle |
| `Likes.ToggleTwiceIsIdentity` | src/App.js:333-334 | two successful toggles return the original state |
| `Likes.ToggleAllParity` | src/App.js:326-349 | after any run of toggles, the state is valid. It is the original state after an even number of successes and the flipped state after an odd number |
| `Likes.OverlappingToggles` | src/App.js:329-346 | with no in-flight guard, a second toggle applies while the first is pending. If the first fails and the second succeeds, the screen ends where it started |
| `Comments.TempId` | src/App.js:357 | the temporary id is `temp-` followed by decimal digits, without a leading zero, that read back as the clock reading |
| `Comments.TempIdInjective` | src/App.js:357 | temporary ids created at different clock readings differ |
| `Comments.Apply` | src/App.js:351-366 | a blocked submit changes nothing. Otherwise exactly one comment is appended at the end, carrying the untrimmed input, the user's id and name, and the temporary id. The input is cleared and the in-flight flag is set |
| `Comments.Without` | src/App.js:382 | the result keeps exactly the comments whose id differs from the given one, and returns the list itself when no comment has that id |
| `Comments.Settle` | src/App.js:369-387 | success keeps the list and the input. Failure leaves the list filtered by `Without`: exactly the comments with the temporary id are removed and every other one is kept. It also restores the old input. Either way nothing is left in flight |
| `Comments.WithoutAppend` | src/App.js:382 | filtering by id distributes over concatenation |
| `Comments.SubmitOutcomes` | src/App.js:351-388 | for a non-blank input, a signed-in user and nothing in flight: a successful submit leaves exactly the new comment appended and the input cleared. A failed one with a fresh temporary id restores the state before the submit exactly |
| `Comments.BlockedSubmitIsNoOp` | src/App.js:353 | with a blank input, no user or a submit in flight, nothing changes |
| `Comments.BlankInputNeverSubmits` | src/App.js:353 | an all-whitespace input never passes the guard |
| `Comments.InFlightBlocksSecondSubmit` | src/App.js:353-355 | a second submit while one is in flight does nothing, even after new non-blank text has been typed into the cleared input |
| `Comments.Displayed` | src/App.js:390 | with "show all" on, every comment is shown. With it off, the last min(2, n) are shown, always as a suffix of the list in order |
| `Comments.ViewAllIffHidden` | src/App.js:445-449 | the "View all n comments" link appears exactly when some comment is hidden |
| `Follow.Apply` | src/App.js:666-672 | a blocked toggle changes nothing. Otherwise the flag flips, the call is marked in flight and the old flag is kept for rollback |
| `Follow.Settle` | src/App.js:677-693 | nothing is in flight afterwards. Success keeps the flag. Failure restores the old flag and sets the error message |
| `Follow.ToggleOutcomes` | src/App.js:666-694 | an allowed toggle ends with the flag flipped (success) or unchanged with the error set (failure) |
| `Follow.BlockedToggleIsNoOp` | src/App.js:610-667 | signed out, on one's own profile (same username) or with a call in flight, nothing changes |
| `Follow.ToggleTwiceIsIdentity` | src/App.js:670-672 | a successful follow followed by a successful unfollow restores the original state |
| `Follow.InFlightBlocksSecondToggle` | src/App.js:667-692 | a second click while a call is in flight is ignored, and the first call's rollback restores the flag from before the first click |

## Left out

- JSX, styling, icons, the theme toggle and its `matchMedia`/DOM handling, and the placeholder screens: presentational, no logic.
- The login and signup screens' mock credential check, and their `navigate` calls. They only call `login`, which is modelled.
- Profile and feed loading: mock lookups stand in for the commented-out remote calls.
- React effect scheduling, `setTimeout` delays and `console` output. Each handler is a synchronous `Apply`/`Settle` pair. A token check is either an uninterrupted `VerifyEvent` or, when other events happen while it waits, a late-settling check in `Session.Run`: `StaleEvent` settles it as the code does, reading the store as it then is; `ResumeEvent` settles it under the token guard of the corrected `Session.Resume` of "## Findings".
- Session.Resume: the guard compares tokens, so a check started under a token that was logged out and then logged in again is not abandoned. An effect cleanup would abandon it. Such a check only reads the record of the session then current.
- The re-initialisation of a post's like and comment state when the post or the user changes. It uses the same formula as `Likes.Init`.
- `Date.now()` and `new Date()`: the clock reading is a parameter. In `Comments.Apply` one reading stands for both the `Date.now()` of the temporary id and the `new Date()` of `createdAt`, which the code reads one after the other.
- `timeAgo`'s floating-point arithmetic: integer seconds are used instead, which gives the same result for integer inputs. Invalid dates (NaN) are not modelled.
- JSON: a user record is five quoted fields instead of JSON text. Stored text that `JSON.parse` accepts but that is not a user object (such as `null`) is treated as unreadable, which signs out. In JavaScript the user would be set to that value.
- react-router internals: case-insensitive matching, trailing slashes and URL decoding of path segments. A path is given as its list of segments.
- Comments.Without: states which comments are kept, not that their order is preserved. `Comments.SubmitOutcomes` gives the exact result for a submission's own rollback.
- The follower-count update and the replacement of a temporary comment by the server's copy: both are commented out in the source.

## Findings

| source | as written | input that shows it | evidently intended | confidence | as-written member | corrected member |
|---|---|---|---|---|---|---|
| src/App.js:858-896 | `verifyTokenAndLoadUser` tests `token` before its 300 ms wait and reads `authUser` only after it. The effect has no cleanup, so a check still waiting when `logout` runs carries on | `login("t", u)`, then `logout()` within 300 ms: the check started by the login finds no stored record, sets `user` to the fallback account and stores its record while `token` is null | a check whose token changed while it waited does nothing, so a `logout` stays a logout (`Session.LogoutSurvivesStaleChecks`) | medium, not executed | `Session.StaleCheckUndoesLogout` | `Session.Resume` |

=== FILE: access_gate.dfy ===
/** Which screen a navigation ends on: the route table of `App`, the
    `ProtectedRoute` wrapper and the full-page loader `App` shows while the
    token check is pending. */
module AccessGate {
  import opened Wrappers
  import opened UserCodec
  import opened Session

  /** The screens behind `ProtectedRoute`. */
  datatype Page =
    | Feed | CreatePost | SearchPage | Notifications | Saved | Settings
    | SinglePost(postId: string)
    | Profile(username: string)

  /** What a requested path is, according to the route table. */
  datatype View = LoginView | SignupView | ProtectedView(page: Page) | UnknownView

  /** What is shown: the requested screen, a redirect, or the loader. */
  datatype Decision = Render | RedirectToLogin | RedirectToHome | Loading

  /** Path segments that are a static route of their own, so never a username. */
  predicate Reserved(segment: string) {
    segment in ["login", "signup", "create", "search", "notifications", "saved", "settings"]
  }

  /** Matches a path, split into its segments, against the route table;
      a static route wins over `/:username`. */
  function Classify(segments: seq<string>): (v: View)
    ensures v == LoginView <==> segments == ["login"]
    ensures v == SignupView <==> segments == ["signup"]
    ensures v.UnknownView? <==> |segments| > 2 || (|segments| == 2 && segments[0] != "p")
    ensures v == ProtectedView(Feed) <==> segments == []
    ensures forall name :: v == ProtectedView(Profile(name)) <==> segments == [name] && !Reserved(name)
    ensures forall p: Page :: !p.Profile? ==> (v == ProtectedView(p) <==> segments == PathOf(p))
  {
    if segments == [] then ProtectedView(Feed)
    else if |segments| == 1 then
      match segments[0]
      case "login" => LoginView
      case "signup" => SignupView
      case "create" => ProtectedView(CreatePost)
      case "search" => ProtectedView(SearchPage)
      case "notifications" => ProtectedView(Notifications)
      case "saved" => ProtectedView(Saved)
      case "settings" => ProtectedView(Settings)
      case name => ProtectedView(Profile(name))
    else if |segments| == 2 && segments[0] == "p" then ProtectedView(SinglePost(segments[1]))
    else UnknownView
  }

  /** The path the application links to for each protected screen. */
  function PathOf(p: Page): seq<string> {
    match p
    case Feed => []
    case CreatePost => ["create"]
    case SearchPage => ["search"]
    case Notifications => ["notifications"]
    case Saved => ["saved"]
    case Settings => ["settings"]
    case SinglePost(id) => ["p", id]
    case Profile(name) => [name]
  }

  /** Every protected screen is reached through its own path, except a
      profile whose username collides with a static route. */
  lemma ClassifyPathOf(p: Page)
    ensures (p.Profile? ==> !Reserved(p.username)) <==> Classify(PathOf(p)) == ProtectedView(p)
  {
  }

  /** `ProtectedRoute`: the loader while the token check is pending, the
      login screen without a token, the wrapped screen otherwise. */
  function ProtectedRoute(s: Session): (d: Decision)
    ensures d == Loading <==> s.isAuthLoading
    ensures !s.isAuthLoading ==> (d == Render <==> HasToken(s))
    ensures !s.isAuthLoading ==> (d == RedirectToLogin <==> !HasToken(s))
  {
    if s.isAuthLoading then Loading
    else if !HasToken(s) then RedirectToLogin
    else Render
  }

  /** The whole decision for one navigation. */
  function Gate(v: View, s: Session): (d: Decision)
    ensures d == Loading <==> s.isAuthLoading
    ensures v.ProtectedView? && !s.isAuthLoading ==> (d == Render <==> HasToken(s))
    ensures v.ProtectedView? && !s.isAuthLoading ==> (d == RedirectToLogin <==> !HasToken(s))
    ensures (v == LoginView || v == SignupView) && !s.isAuthLoading ==>
      (d == RedirectToHome <==> HasToken(s)) && (d == Render <==> !HasToken(s))
    ensures v == UnknownView && !s.isAuthLoading ==>
      (d == RedirectToHome <==> HasToken(s)) && (d == RedirectToLogin <==> !HasToken(s))
  {
    if s.isAuthLoading then Loading
    else
      match v
      case LoginView => if HasToken(s) then RedirectToHome else Render
      case SignupView => if HasToken(s) then RedirectToHome else Render
      case ProtectedView(_) => ProtectedRoute(s)
      case UnknownView => if HasToken(s) then RedirectToHome else RedirectToLogin
  }

  /** A screen is rendered only where it belongs: a protected one with a
      token, the login and signup screens without one, an unknown path never. */
  lemma GateRendersOnlyAllowed(v: View, s: Session)
    ensures Gate(v, s) == Render ==>
      (v.ProtectedView? && HasToken(s)) || ((v == LoginView || v == SignupView) && !HasToken(s))
  {
  }

  /** The gate looks at the token and the loading flag only: two sessions
      that agree on those get the same answer, whatever user they hold. */
  lemma GateIgnoresUser(v: View, s1: Session, s2: Session)
    requires HasToken(s1) == HasToken(s2) && s1.isAuthLoading == s2.isAuthLoading
    ensures Gate(v, s1) == Gate(v, s2)
  {
  }

  /** A redirect lands on a screen that renders: the gate never bounces a
      navigation twice. */
  lemma RedirectsSettle(v: View, s: Session)
    ensures Gate(v, s) == RedirectToLogin ==> Gate(Classify(["login"]), s) == Render
    ensures Gate(v, s) == RedirectToHome ==> Gate(Classify([]), s) == Render
  {
  }

  /** Starting without a stored token, once the token check has run every
      protected screen redirects to the login screen. */
  lemma NoStoredTokenRedirectsToLogin(store: Store, outcome: Outcome, p: Page)
    requires AuthTokenKey !in store
    ensures Gate(ProtectedView(p), Verify(Mount(store), outcome).session) == RedirectToLogin
  {
  }

  /** Starting with a stored token that the check accepts, the login and
      signup screens redirect to the feed and protected screens render. */
  lemma AcceptedTokenRedirectsHome(store: Store, p: Page)
    requires Truthy(Get(store, AuthTokenKey))
    requires AuthUserKey in store ==> store[AuthUserKey] == "" || Decode(store[AuthUserKey]).Some?
    ensures Gate(LoginView, Verify(Mount(store), Success).session) == RedirectToHome
    ensures Gate(SignupView, Verify(Mount(store), Success).session) == RedirectToHome
    ensures Gate(ProtectedView(p), Verify(Mount(store), Success).session) == Render
  {
  }

  /** After `logout`, once the application is not loading, no protected
      screen renders and the login screen does. */
  lemma LogoutClosesProtectedScreens(a: App, p: Page)
    requires !a.session.isAuthLoading
    ensures Gate(ProtectedView(p), Logout(a).session) == RedirectToLogin
    ensures Gate(LoginView, Logout(a).session) == Render
  {
  }
}

=== FILE: comments.dfy ===
/** The comment section of a post: submitting a comment optimistically
    with a temporary id, rolling it back when the remote call throws, and
    which comments are shown. */
module Comments {
  import opened Wrappers
  import opened UserCodec
  import Text
  import Decimal

  datatype Comment = Comment(id: string, authorId: string, authorName: string, text: string, createdAt: int)

  /** Per-post comment state: the list shown, the text in the input box,
      whether a submission is in flight, and whether all comments are shown. */
  datatype CommentState = CommentState(comments: seq<Comment>, input: string, isCommenting: bool, showAll: bool)

  /** What a submission that was applied remembers until it settles. */
  datatype Pending = Pending(tempId: string, oldInput: string)

  /** The id of the temporary comment created at clock reading `now` (`'temp-' + Date.now()`). */
  function TempId(now: nat): (id: string)
    ensures |id| > 5 && id[..5] == "temp-"
    ensures Decimal.AllDigits(id[5..]) && Decimal.DigitsValue(id[5..]) == now
    ensures id[5] == '0' ==> now == 0 && |id| == 6
  {
    Decimal.DigitsRoundTrip(now);
    var digits := Decimal.NatToString(now);
    assert ("temp-" + digits)[5..] == digits;
    "temp-" + digits
  }

  /** Temporary ids made at different instants differ. */
  lemma TempIdInjective(a: nat, b: nat)
    ensures TempId(a) == TempId(b) ==> a == b
  {
    if TempId(a) == TempId(b) {
      assert TempId(a)[5..] == Decimal.NatToString(a);
      assert TempId(b)[5..] == Decimal.NatToString(b);
      Decimal.NatToStringInjective(a, b);
    }
  }

  /** The submit button's guard: a blank input, no signed-in user or a
      submission in flight turns a submit into nothing. */
  predicate CanSubmit(s: CommentState, currentUser: Option<User>) {
    Text.Trim(s.input) != [] && currentUser.Some? && !s.isCommenting
  }

  /** The optimistic step of `handleCommentSubmit`: one temporary comment
      carrying the untrimmed input and the user's id and name is appended
      at the end, the input is cleared and the in-flight flag is set. */
  function Apply(s: CommentState, currentUser: Option<User>, now: nat): (r: (CommentState, Option<Pending>))
    ensures !CanSubmit(s, currentUser) ==> r == (s, None)
    ensures CanSubmit(s, currentUser) ==>
      && r.1 == Some(Pending(TempId(now), s.input))
      && |r.0.comments| == |s.comments| + 1
      && r.0.comments[..|s.comments|] == s.comments
      && r.0.comments[|s.comments|] == Comment(TempId(now), currentUser.value.id, currentUser.value.username, s.input, now)
      && r.0.input == [] && r.0.isCommenting && r.0.showAll == s.showAll
  {
    if !CanSubmit(s, currentUser) then (s, None)
    else
      var u := currentUser.value;
      var temp := Comment(TempId(now), u.id, u.username, s.input, now);
      (s.(comments := s.comments + [temp], input := [], isCommenting := true), Some(Pending(temp.id, s.input)))
  }

  /** `comments.filter(c => c._id !== id)`. */
  function Without(cs: seq<Comment>, id: string): (r: seq<Comment>)
    ensures |r| <= |cs|
    ensures forall i :: 0 <= i < |r| ==> r[i].id != id && r[i] in cs
    ensures forall c :: c in cs && c.id != id ==> c in r
    ensures (forall i :: 0 <= i < |cs| ==> cs[i].id != id) ==> r == cs
  {
    if cs == [] then []
    else if cs[0].id == id then Without(cs[1..], id)
    else [cs[0]] + Without(cs[1..], id)
  }

  /** Filtering distributes over concatenation. */
  lemma {:induction false} WithoutAppend(a: seq<Comment>, b: seq<Comment>, id: string)
    ensures Without(a + b, id) == Without(a, id) + Without(b, id)
    decreases |a|
  {
    if a == [] {
      assert a + b == b;
    } else {
      assert (a + b)[0] == a[0];
      assert (a + b)[1..] == a[1..] + b;
      WithoutAppend(a[1..], b, id);
    }
  }

  /** The remote call settles. Success keeps the temporary comment (the
      replacement by the server's copy is not done); failure filters the
      temporary id out of the list as it is then and puts the old input
      back. The in-flight flag is cleared either way. */
  function Settle(s: CommentState, p: Pending, outcome: Outcome): (r: CommentState)
    ensures !r.isCommenting && r.showAll == s.showAll
    ensures outcome.Success? ==> r.comments == s.comments && r.input == s.input
    ensures outcome.Failure? ==>
      && r.input == p.oldInput
      && r.comments == Without(s.comments, p.tempId)
  {
    if outcome.Failure? then
      s.(comments := Without(s.comments, p.tempId), input := p.oldInput, isCommenting := false)
    else
      s.(isCommenting := false)
  }

  /** `handleCommentSubmit` run to completion. */
  function Submit(s: CommentState, currentUser: Option<User>, now: nat, outcome: Outcome): CommentState {
    match Apply(s, currentUser, now)
    case (applied, Some(p)) => Settle(applied, p, outcome)
    case (same, None) => same
  }

  /** A non-blank submission by a signed-in user with nothing in flight
      either keeps the one new comment at the end (success) or, when its
      temporary id is not already in use, gives back exactly the state
      before the submit (failure): the original list, the original input,
      nothing in flight. */
  lemma SubmitOutcomes(s: CommentState, u: User, now: nat, outcome: Outcome)
    requires !Text.Blank(s.input) && !s.isCommenting
    ensures outcome.Success? ==>
      Submit(s, Some(u), now, outcome) ==
        s.(comments := s.comments + [Comment(TempId(now), u.id, u.username, s.input, now)], input := [])
    ensures outcome.Failure? && (forall i :: 0 <= i < |s.comments| ==> s.comments[i].id != TempId(now)) ==>
      Submit(s, Some(u), now, outcome) == s
  {
    Text.TrimEmptyIffBlank(s.input);
    var temp := Comment(TempId(now), u.id, u.username, s.input, now);
    if outcome.Failure? && (forall i :: 0 <= i < |s.comments| ==> s.comments[i].id != TempId(now)) {
      WithoutAppend(s.comments, [temp], temp.id);
      assert Without([temp], temp.id) == [];
    }
  }

  /** A blocked submit changes nothing. */
  lemma BlockedSubmitIsNoOp(s: CommentState, currentUser: Option<User>, now: nat, outcome: Outcome)
    requires !CanSubmit(s, currentUser)
    ensures Submit(s, currentUser, now, outcome) == s
  {
  }

  /** An input of whitespace only never submits, whoever is signed in. */
  lemma BlankInputNeverSubmits(s: CommentState, currentUser: Option<User>)
    requires Text.Blank(s.input)
    ensures !CanSubmit(s, currentUser)
  {
    Text.TrimEmptyIffBlank(s.input);
  }

  /** While a submission is in flight a second submit is a no-op, even
      when new text has been typed into the cleared input meanwhile. */
  lemma InFlightBlocksSecondSubmit(s: CommentState, u: User, now: nat, later: nat, next: string)
    requires !Text.Blank(s.input) && !s.isCommenting && !Text.Blank(next)
    ensures var (applied, _) := Apply(s, Some(u), now);
            var typed := applied.(input := next);
            applied.isCommenting && Apply(typed, Some(u), later) == (typed, None)
  {
    Text.TrimEmptyIffBlank(s.input);
  }

  /** `comments.slice(-2)`: the last two comments, or all when fewer. */
  function LastTwo(cs: seq<Comment>): seq<Comment> {
    if |cs| <= 2 then cs else cs[|cs| - 2..]
  }

  /** The comments shown under the post. */
  function Displayed(s: CommentState): (r: seq<Comment>)
    ensures s.showAll ==> r == s.comments
    ensures !s.showAll ==> |r| == (if |s.comments| < 2 then |s.comments| else 2)
    ensures r == s.comments[|s.comments| - |r|..]
  {
    if s.showAll then s.comments else LastTwo(s.comments)
  }

  /** Whether the "View all n comments" link is shown. */
  function ShowViewAll(s: CommentState): bool {
    |s.comments| > 2 && !s.showAll
  }

  /** The link is offered exactly when some comment is hidden. */
  lemma ViewAllIffHidden(s: CommentState)
    ensures ShowViewAll(s) <==> |Displayed(s)| < |s.comments|
  {
  }
}

=== FILE: decimal.dfy ===
/** The decimal rendering of integers that `+` performs when a number is
    concatenated with a string, and reading such text back. */
module Decimal {
  import opened Wrappers

  /** The decimal digit character for `d`. */
  function DigitChar(d: nat): (c: char)
    requires d < 10
    ensures '0' <= c <= '9' && c as int - '0' as int == d
  {
    (d + '0' as int) as char
  }

  predicate IsDigit(c: char) {
    '0' <= c <= '9'
  }

  predicate AllDigits(s: string) {
    forall i :: 0 <= i < |s| ==> IsDigit(s[i])
  }

  /** The decimal rendering of `n`, as `String(n)` produces it. */
  function NatToString(n: nat): (r: string)
    ensures |r| >= 1
    ensures AllDigits(r)
    ensures r[0] == '0' ==> n == 0 && |r| == 1
  {
    if n < 10 then [DigitChar(n)] else NatToString(n / 10) + [DigitChar(n % 10)]
  }

  /** The number a string of decimal digits denotes. */
  function DigitsValue(s: string): nat
    requires AllDigits(s)
  {
    if s == [] then 0
    else
      var last := s[|s| - 1];
      assert IsDigit(last);
      DigitsValue(s[..|s| - 1]) * 10 + (last as int - '0' as int)
  }

  /** Reading back the rendering of `n` gives `n`. */
  lemma {:induction false} DigitsRoundTrip(n: nat)
    ensures DigitsValue(NatToString(n)) == n
  {
    var r := NatToString(n);
    if n >= 10 {
      assert r[..|r| - 1] == NatToString(n / 10);
      DigitsRoundTrip(n / 10);
    }
  }

  /** Distinct numbers render to distinct strings. */
  lemma NatToStringInjective(a: nat, b: nat)
    ensures NatToString(a) == NatToString(b) ==> a == b
  {
    DigitsRoundTrip(a);
    DigitsRoundTrip(b);
  }

  /** Decimal text as `String(i)` writes an integer: an optional `-`, then
      digits with no leading zero, and never `-0`. */
  predicate Canonical(s: string) {
    if |s| >= 1 && s[0] == '-' then |s| >= 2 && AllDigits(s[1..]) && s[1] != '0'
    else |s| >= 1 && AllDigits(s) && (s[0] == '0' ==> |s| == 1)
  }

  /** Digits that do not start with `0` denote a positive number. */
  lemma {:induction false} LeadingDigitPositive(p: string)
    requires |p| >= 1 && AllDigits(p) && p[0] != '0'
    ensures DigitsValue(p) >= 1
    decreases |p|
  {
    if |p| >= 2 {
      var q := p[..|p| - 1];
      assert q[0] == p[0];
      LeadingDigitPositive(q);
    }
  }

  /** A digit string without a superfluous leading zero is the rendering of its value. */
  lemma {:induction false} CanonicalDigits(p: string)
    requires |p| >= 1 && AllDigits(p) && (p[0] == '0' ==> |p| == 1)
    ensures p == NatToString(DigitsValue(p))
    decreases |p|
  {
    var last := p[|p| - 1];
    assert IsDigit(last);
    if |p| == 1 {
      assert p == [last];
    } else {
      var q := p[..|p| - 1];
      assert q[0] == p[0];
      LeadingDigitPositive(q);
      CanonicalDigits(q);
      var n := DigitsValue(p);
      assert n == DigitsValue(q) * 10 + (last as int - '0' as int);
      assert n / 10 == DigitsValue(q) && n % 10 == last as int - '0' as int;
      assert p == q + [last];
    }
  }

  /** Reads an optionally negative decimal integer, as `parseInt` does for
      text made only of a sign and digits; anything else gives `None`. */
  function ParseInt(s: string): Option<int> {
    if |s| >= 2 && s[0] == '-' && AllDigits(s[1..]) then Some(-(DigitsValue(s[1..]) as int))
    else if |s| >= 1 && AllDigits(s) then Some(DigitsValue(s))
    else None
  }

  /** The decimal rendering of `i`, with a leading `-` when negative. */
  function IntToString(i: int): (r: string)
    ensures |r| >= 1
    ensures r[0] == '-' <==> i < 0
    ensures i >= 0 ==> AllDigits(r) && DigitsValue(r) == i
    ensures i < 0 ==> AllDigits(r[1..]) && DigitsValue(r[1..]) == -i
    ensures ParseInt(r) == Some(i)
    ensures Canonical(r)
  {
    if i < 0 then
      DigitsRoundTrip(-i);
      assert ("-" + NatToString(-i))[1..] == NatToString(-i);
      "-" + NatToString(-i)
    else
      DigitsRoundTrip(i);
      NatToString(i)
  }

  /** `String(i)` is the only canonical text that reads as `i`. */
  lemma CanonicalUnique(s: string, i: int)
    requires Canonical(s) && ParseInt(s) == Some(i)
    ensures s == IntToString(i)
  {
    if s[0] == '-' {
      var p := s[1..];
      LeadingDigitPositive(p);
      CanonicalDigits(p);
      assert s == "-" + p;
    } else {
      CanonicalDigits(s);
    }
  }
}

=== FILE: follow.dfy ===
/** The follow button on a profile page: flipped before the remote call,
    flipped back with an error message if the call throws, and held back
    while a call is in flight, on one's own profile, or when signed out. */
module Follow {
  import opened Wrappers
  import opened UserCodec

  datatype FollowState = FollowState(isFollowing: bool, followLoading: bool, error: string)

  /** The message shown when a follow or unfollow is rolled back. */
  const FollowError: string := "Could not update follow status."

  /** `currentUser?.username === username`: the page is the signed-in
      user's own profile. Signed out, no page is one's own. */
  predicate IsOwnProfile(currentUser: Option<User>, routeUsername: string) {
    currentUser.Some? && currentUser.value.username == routeUsername
  }

  /** The guard of `handleFollowToggle`. */
  predicate CanToggle(s: FollowState, currentUser: Option<User>, routeUsername: string) {
    currentUser.Some? && !IsOwnProfile(currentUser, routeUsername) && !s.followLoading
  }

  /** The optimistic step: the flag flips and the call is marked in
      flight; the flag before is returned to roll back to. A blocked toggle
      changes nothing and leaves nothing pending. */
  function Apply(s: FollowState, currentUser: Option<User>, routeUsername: string): (r: (FollowState, Option<bool>))
    ensures !CanToggle(s, currentUser, routeUsername) ==> r == (s, None)
    ensures CanToggle(s, currentUser, routeUsername) ==>
      && r.1 == Some(s.isFollowing)
      && r.0.isFollowing != s.isFollowing
      && r.0.followLoading
      && r.0.error == s.error
  {
    if !CanToggle(s, currentUser, routeUsername) then (s, None)
    else (s.(isFollowing := !s.isFollowing, followLoading := true), Some(s.isFollowing))
  }

  /** The remote call settles: success keeps the flipped flag; failure
      restores the flag from before and sets the error message. The
      in-flight flag is cleared either way. */
  function Settle(s: FollowState, originalFollowing: bool, outcome: Outcome): (r: FollowState)
    ensures !r.followLoading
    ensures outcome.Success? ==> r.isFollowing == s.isFollowing && r.error == s.error
    ensures outcome.Failure? ==> r.isFollowing == originalFollowing && r.error == FollowError
  {
    if outcome.Failure? then
      FollowState(originalFollowing, false, FollowError)
    else
      s.(followLoading := false)
  }

  /** `handleFollowToggle` run to completion. */
  function Toggle(s: FollowState, currentUser: Option<User>, routeUsername: string, outcome: Outcome): FollowState {
    match Apply(s, currentUser, routeUsername)
    case (applied, Some(original)) => Settle(applied, original, outcome)
    case (same, None) => same
  }

  /** A toggle that goes ahead ends with nothing in flight, and the flag
      either flipped (success) or as it was with the error set (failure). */
  lemma ToggleOutcomes(s: FollowState, u: User, routeUsername: string, outcome: Outcome)
    requires CanToggle(s, Some(u), routeUsername)
    ensures outcome.Success? ==> Toggle(s, Some(u), routeUsername, outcome) == s.(isFollowing := !s.isFollowing)
    ensures outcome.Failure? ==> Toggle(s, Some(u), routeUsername, outcome) == s.(error := FollowError)
  {
  }

  /** One's own profile, a signed-out visitor or a call in flight: nothing changes. */
  lemma BlockedToggleIsNoOp(s: FollowState, currentUser: Option<User>, routeUsername: string, outcome: Outcome)
    requires currentUser.None? || IsOwnProfile(currentUser, routeUsername) || s.followLoading
    ensures Toggle(s, currentUser, routeUsername, outcome) == s
  {
  }

  /** Follow then unfollow, both successful, is back where it started. */
  lemma ToggleTwiceIsIdentity(s: FollowState, u: User, routeUsername: string)
    requires CanToggle(s, Some(u), routeUsername)
    ensures Toggle(Toggle(s, Some(u), routeUsername, Success), Some(u), routeUsername, Success) == s
  {
  }

  /** While a toggle is in flight a second click is ignored, and the first
      one's rollback then restores the flag from before the first click. */
  lemma InFlightBlocksSecondToggle(s: FollowState, u: User, routeUsername: string)
    requires CanToggle(s, Some(u), routeUsername)
    ensures var (applied, original) := Apply(s, Some(u), routeUsername);
            && Apply(applied, Some(u), routeUsername) == (applied, None)
            && Settle(applied, original.value, Failure).isFollowing == s.isFollowing
  {
  }
}

=== FILE: likes.dfy ===
/** The like button of a post: a liked flag and a counter, updated before
    the remote call and put back if the call throws. Unlike comments and
    follows, a second toggle is not held back while one is in flight. */
module Likes {
  import opened Wrappers
  import opened UserCodec

  datatype LikeState = LikeState(isLiked: bool, likeCount: int)

  /** The count is never negative and a liked post counts at least the one like. */
  predicate Valid(s: LikeState) {
    s.likeCount >= 0 && (s.isLiked ==> s.likeCount >= 1)
  }

  /** The state a post starts with, from the ids of the users who like it. */
  function Init(likes: seq<string>, currentUser: Option<User>): (s: LikeState)
    ensures Valid(s)
    ensures s.likeCount == |likes|
    ensures s.isLiked <==> currentUser.Some? && exists i :: 0 <= i < |likes| && likes[i] == currentUser.value.id
  {
    LikeState(currentUser.Some? && currentUser.value.id in likes, |likes|)
  }

  /** The optimistic step: with a signed-in user the flag flips and the
      count moves one step in the flag's new direction; the state before is
      returned as the snapshot to roll back to. Without a user nothing
      happens and nothing is pending. */
  function Apply(s: LikeState, currentUser: Option<User>): (r: (LikeState, Option<LikeState>))
    ensures currentUser.None? ==> r == (s, None)
    ensures currentUser.Some? ==> r.1 == Some(s)
    ensures currentUser.Some? ==> r.0.isLiked != s.isLiked
    ensures currentUser.Some? ==> r.0.likeCount == s.likeCount + (if r.0.isLiked then 1 else -1)
    ensures Valid(s) ==> Valid(r.0)
  {
    if currentUser.None? then (s, None)
    else
      var liked := s.isLiked;
      (LikeState(!liked, if liked then s.likeCount - 1 else s.likeCount + 1), Some(s))
  }

  /** The remote call settles: success keeps whatever is shown now; failure
      puts back the snapshot taken when this toggle was applied. */
  function Settle(current: LikeState, snapshot: LikeState, outcome: Outcome): (r: LikeState)
    ensures outcome.Failure? ==> r == snapshot
    ensures outcome.Success? ==> r == current
    ensures Valid(current) && Valid(snapshot) ==> Valid(r)
  {
    if outcome.Failure? then snapshot else current
  }

  /** `handleLikeToggle` run to completion with no other toggle in between. */
  function Toggle(s: LikeState, currentUser: Option<User>, outcome: Outcome): LikeState {
    match Apply(s, currentUser)
    case (applied, Some(snapshot)) => Settle(applied, snapshot, outcome)
    case (same, None) => same
  }

  /** A failed toggle, or one without a user, leaves the state exactly as it was;
      a successful one flips the flag and moves the count by one. */
  lemma ToggleOutcomes(s: LikeState, currentUser: Option<User>, outcome: Outcome)
    ensures currentUser.None? || outcome.Failure? ==> Toggle(s, currentUser, outcome) == s
    ensures currentUser.Some? && outcome.Success? ==>
      var r := Toggle(s, currentUser, outcome);
      r.isLiked == !s.isLiked && (r.likeCount - s.likeCount == if s.isLiked then -1 else 1)
  {
  }

  /** Toggling keeps the state valid, whatever the outcome. */
  lemma ToggleKeepsValid(s: LikeState, currentUser: Option<User>, outcome: Outcome)
    requires Valid(s)
    ensures Valid(Toggle(s, currentUser, outcome))
  {
  }

  /** Two successful toggles undo each other. */
  lemma ToggleTwiceIsIdentity(s: LikeState, currentUser: Option<User>)
    ensures Toggle(Toggle(s, currentUser, Success), currentUser, Success) == s
  {
  }

  /** A sequence of completed toggles, each with its own outcome. */
  function ToggleAll(s: LikeState, currentUser: Option<User>, outcomes: seq<Outcome>): LikeState
    decreases |outcomes|
  {
    if outcomes == [] then s else ToggleAll(Toggle(s, currentUser, outcomes[0]), currentUser, outcomes[1..])
  }

  /** Number of successes among the outcomes. */
  function Successes(outcomes: seq<Outcome>): nat {
    if outcomes == [] then 0 else (if outcomes[0].Success? then 1 else 0) + Successes(outcomes[1..])
  }

  /** After any run of completed toggles by a signed-in user the state is
      still valid, and it is the original state exactly when an even number
      of them succeeded, the flipped one otherwise. */
  lemma {:induction false} ToggleAllParity(s: LikeState, u: User, outcomes: seq<Outcome>)
    requires Valid(s)
    ensures Valid(ToggleAll(s, Some(u), outcomes))
    ensures Successes(outcomes) % 2 == 0 ==> ToggleAll(s, Some(u), outcomes) == s
    ensures Successes(outcomes) % 2 == 1 ==> ToggleAll(s, Some(u), outcomes) == Toggle(s, Some(u), Success)
    decreases |outcomes|
  {
    if outcomes != [] {
      var next := Toggle(s, Some(u), outcomes[0]);
      ToggleAllParity(next, u, outcomes[1..]);
      if outcomes[0].Success? {
        ToggleTwiceIsIdentity(s, Some(u));
      }
    }
  }

  /** With no in-flight guard, a second toggle applied while the first is
      pending is not held back; if the first then fails and the second
      succeeds, the screen ends where it started although the second call
      went through, and the state is still valid. */
  lemma OverlappingToggles(s: LikeState, u: User)
    requires Valid(s)
    ensures var (first, snap1) := Apply(s, Some(u));
            var (second, snap2) := Apply(first, Some(u));
            && second == s
            && snap2 == Some(first)
            && Settle(Settle(second, snap1.value, Failure), snap2.value, Success) == s
            && Valid(Settle(Settle(second, snap1.value, Failure), snap2.value, Success))
  {
  }
}

=== FILE: session.dfy ===
/** The authentication state `App` keeps (`token`, `user`,
    `isAuthLoading`) and its durable copy in the browser's key/value
    store under `authToken` and `authUser`: the mount-time read, `login`,
    `logout` and the token check that runs whenever the token changes. */
module Session {
  import opened Wrappers
  import opened UserCodec

  /** The browser's `localStorage`: string keys to string values. */
  type Store = map<string, string>

  const AuthTokenKey: string := "authToken"
  const AuthUserKey: string := "authUser"

  datatype Session = Session(token: Option<string>, user: Option<User>, isAuthLoading: bool)

  datatype App = App(session: Session, store: Store)

  /** `localStorage.getItem(key)`: the stored string, or `null`. */
  function Get(store: Store, key: string): Option<string> {
    if key in store then Some(store[key]) else None
  }

  /** JavaScript truthiness of a string-or-null: `null` and `""` are falsy. */
  predicate Truthy(v: Option<string>) {
    v.Some? && v.value != ""
  }

  /** The `token` test the route gate and the token check perform. */
  predicate HasToken(s: Session) {
    Truthy(s.token)
  }

  /** True when no key other than the two session keys differs between the stores. */
  ghost predicate OtherKeysUnchanged(before: Store, after: Store) {
    forall k :: k != AuthTokenKey && k != AuthUserKey ==> Get(after, k) == Get(before, k)
  }

  /** The store mirrors the in-memory session: the token held is the one
      stored, and a user held is the one the stored record decodes to. */
  predicate Mirrored(a: App) {
    && a.session.token == Get(a.store, AuthTokenKey)
    && (a.session.user.Some? ==>
          AuthUserKey in a.store && Decode(a.store[AuthUserKey]) == a.session.user)
  }

  /** Nothing of a session is left in memory or in the store. */
  predicate SignedOut(a: App) {
    && a.session.token.None?
    && a.session.user.None?
    && AuthTokenKey !in a.store
    && AuthUserKey !in a.store
  }

  /** The state `App` starts in: the token is whatever the store holds,
      no user is known yet, and the token check is pending. */
  function Mount(store: Store): (a: App)
    ensures a.store == store
    ensures Mirrored(a)
    ensures a.session.user.None? && a.session.isAuthLoading
  {
    App(Session(Get(store, AuthTokenKey), None, true), store)
  }

  /** Drops both session keys from the store and the token and user from
      memory; the loading flag is not touched. */
  function ClearAuth(a: App): (r: App)
    ensures SignedOut(r) && Mirrored(r)
    ensures OtherKeysUnchanged(a.store, r.store)
    ensures r.session.isAuthLoading == a.session.isAuthLoading
  {
    App(Session(None, None, a.session.isAuthLoading), a.store - {AuthTokenKey, AuthUserKey})
  }

  /** `login(newToken, userData)`: the token and the user's record are
      written to the store and taken into memory. */
  function Login(a: App, token: string, user: User): (r: App)
    ensures r.session.token == Some(token) && r.session.user == Some(user)
    ensures Get(r.store, AuthTokenKey) == Some(token)
    ensures AuthUserKey in r.store && Decode(r.store[AuthUserKey]) == Some(user)
    ensures OtherKeysUnchanged(a.store, r.store)
    ensures r.session.isAuthLoading == a.session.isAuthLoading
    ensures Mirrored(r)
  {
    DecodeIffEncode(Encode(user), user);
    var store := a.store[AuthTokenKey := token][AuthUserKey := Encode(user)];
    App(a.session.(token := Some(token), user := Some(user)), store)
  }

  /** `logout()`: unconditional, from any state. */
  function Logout(a: App): (r: App)
    ensures SignedOut(r) && !HasToken(r.session)
    ensures OtherKeysUnchanged(a.store, r.store)
    ensures r.session.isAuthLoading == a.session.isAuthLoading
    ensures Mirrored(r)
  {
    ClearAuth(a)
  }

  /** The part of `verifyTokenAndLoadUser` after its remote step, as
      written: `outcome` stands for whether that step settles or throws. It
      reads the store as it is when the step settles and does not look at
      the token again. A settled check takes the user from the stored
      record, or uses the fallback account and writes it back when no
      record is stored; a failed check, or a record that cannot be read
      back, signs out. Loading is over on every path. */
  function CheckSettles(a: App, outcome: Outcome): (r: App)
    ensures !r.session.isAuthLoading
    ensures outcome.Failure? ==> SignedOut(r)
    ensures outcome.Success? && Truthy(Get(a.store, AuthUserKey)) ==>
      var stored := Decode(a.store[AuthUserKey]);
      && (stored.Some? ==> r.session == Session(a.session.token, stored, false) && r.store == a.store)
      && (stored.None? ==> SignedOut(r))
    ensures outcome.Success? && !Truthy(Get(a.store, AuthUserKey)) ==>
      && r.session == Session(a.session.token, Some(FallbackUser), false)
      && AuthUserKey in r.store
      && Decode(r.store[AuthUserKey]) == Some(FallbackUser)
      && Get(r.store, AuthTokenKey) == Get(a.store, AuthTokenKey)
    ensures OtherKeysUnchanged(a.store, r.store)
    ensures Mirrored(a) ==> Mirrored(r)
  {
    if outcome.Failure? then
      ClearAuth(a).(session := Session(None, None, false))
    else
      var stored := Get(a.store, AuthUserKey);
      if Truthy(stored) then
        match Decode(stored.value)
        case Some(u) => App(a.session.(user := Some(u), isAuthLoading := false), a.store)
        case None => ClearAuth(a).(session := Session(None, None, false))
      else
        DecodeIffEncode(Encode(FallbackUser), FallbackUser);
        App(a.session.(user := Some(FallbackUser), isAuthLoading := false),
            a.store[AuthUserKey := Encode(FallbackUser)])
  }

  /** `verifyTokenAndLoadUser` run with nothing else happening while its
      remote step is pending. Without a token the user is dropped; with
      one, the check settles as `CheckSettles` describes. */
  function Verify(a: App, outcome: Outcome): (r: App)
    ensures !r.session.isAuthLoading
    ensures !HasToken(a.session) ==>
      r.store == a.store && r.session.token == a.session.token && r.session.user.None?
    ensures HasToken(a.session) && outcome.Failure? ==> SignedOut(r)
    ensures HasToken(a.session) && outcome.Success? && Truthy(Get(a.store, AuthUserKey)) ==>
      var stored := Decode(a.store[AuthUserKey]);
      && (stored.Some? ==> r.session == Session(a.session.token, stored, false) && r.store == a.store)
      && (stored.None? ==> SignedOut(r))
    ensures HasToken(a.session) && outcome.Success? && !Truthy(Get(a.store, AuthUserKey)) ==>
      && r.session == Session(a.session.token, Some(FallbackUser), false)
      && AuthUserKey in r.store
      && Decode(r.store[AuthUserKey]) == Some(FallbackUser)
      && Get(r.store, AuthTokenKey) == Get(a.store, AuthTokenKey)
    ensures OtherKeysUnchanged(a.store, r.store)
    ensures Mirrored(a) ==> Mirrored(r)
  {
    if !HasToken(a.session) then
      App(a.session.(user := None, isAuthLoading := false), a.store)
    else
      CheckSettles(a, outcome)
  }

  /** The check as written lets a `logout` be undone: a check started by a
      login whose remote step settles after a `logout` finds no stored
      record, so it stores the fallback account's record and signs that
      user in, while no token is held. */
  lemma StaleCheckUndoesLogout(a: App, token: string, user: User)
    requires token != ""
    ensures var started := Login(a, token, user);
            var r := CheckSettles(Logout(started), Success);
            && HasToken(started.session)
            && r.session.token.None?
            && r.session.user == Some(FallbackUser)
            && AuthUserKey in r.store
            && !SignedOut(r)
            && Resume(Logout(started), started.session.token, Success) == Logout(started)
  {
  }

  /** The remote step of a check started while the token was `started`
      settles, with a check whose token has changed in the meantime
      abandoned, as an effect cleanup would do. With the token unchanged
      it settles exactly as the uninterrupted check; after a `logout` it
      changes nothing; store and memory keep agreeing. */
  function Resume(a: App, started: Option<string>, outcome: Outcome): (r: App)
    ensures a.session.token == started && Truthy(started) ==> r == Verify(a, outcome)
    ensures a.session.token != started || !Truthy(started) ==> r == a
    ensures Mirrored(a) ==> Mirrored(r)
  {
    if a.session.token != started || !Truthy(started) then a
    else CheckSettles(a, outcome)
  }

  /** What can happen to the session: the `login` and `logout` callbacks,
      an uninterrupted run of the token check with the given remote
      outcome, the late settling of a check as the code does it (reading
      whatever the store holds then), and the late settling of a check
      started while the token was `started` under the token guard. */
  datatype Event =
    | LoginEvent(token: string, user: User)
    | LogoutEvent
    | VerifyEvent(outcome: Outcome)
    | StaleEvent(outcome: Outcome)
    | ResumeEvent(started: Option<string>, outcome: Outcome)

  function Step(a: App, e: Event): App {
    match e
    case LoginEvent(t, u) => Login(a, t, u)
    case LogoutEvent => Logout(a)
    case VerifyEvent(o) => Verify(a, o)
    case StaleEvent(o) => CheckSettles(a, o)
    case ResumeEvent(t, o) => Resume(a, t, o)
  }

  function Run(a: App, events: seq<Event>): App
    decreases |events|
  {
    if events == [] then a else Run(Step(a, events[0]), events[1..])
  }

  /** Running two sequences of events one after the other is running their concatenation. */
  lemma {:induction false} RunAppend(a: App, xs: seq<Event>, ys: seq<Event>)
    ensures Run(a, xs + ys) == Run(Run(a, xs), ys)
    decreases |xs|
  {
    if xs == [] {
      assert xs + ys == ys;
    } else {
      assert (xs + ys)[0] == xs[0];
      assert (xs + ys)[1..] == xs[1..] + ys;
      RunAppend(Step(a, xs[0]), xs[1..], ys);
    }
  }

  /** Late checks settling one after another leave a signed-out session signed out. */
  lemma {:induction false} LateChecksKeepSignedOut(a: App, late: seq<Event>)
    requires SignedOut(a)
    requires forall i :: 0 <= i < |late| ==> late[i].ResumeEvent?
    ensures SignedOut(Run(a, late))
    decreases |late|
  {
    if late != [] {
      LateChecksKeepSignedOut(Step(a, late[0]), late[1..]);
    }
  }

  /** A `logout` stays a logout: whatever came before, when the only events
      after it are checks started earlier settling late, neither session key
      is stored and no token or user is held. */
  lemma LogoutSurvivesStaleChecks(a: App, events: seq<Event>, late: seq<Event>)
    requires forall i :: 0 <= i < |late| ==> late[i].ResumeEvent?
    ensures SignedOut(Run(a, events + [LogoutEvent] + late))
  {
    RunAppend(a, events + [LogoutEvent], late);
    RunEndingInLogout(a, events);
    LateChecksKeepSignedOut(Run(a, events + [LogoutEvent]), late);
  }

  /** Store and memory agree after any sequence of session events from
      mount: no transition leaves one updated without the other. */
  lemma {:induction false} RunKeepsMirror(store: Store, events: seq<Event>)
    ensures Mirrored(Run(Mount(store), events))
  {
    RunFromMirrored(Mount(store), events);
  }

  lemma {:induction false} RunFromMirrored(a: App, events: seq<Event>)
    requires Mirrored(a)
    ensures Mirrored(Run(a, events))
    decreases |events|
  {
    if events != [] {
      RunFromMirrored(Step(a, events[0]), events[1..]);
    }
  }

  /** Whatever happened before, a run that ends in `logout` leaves neither
      session key in the store and no token or user in memory. */
  lemma {:induction false} RunEndingInLogout(a: App, events: seq<Event>)
    ensures SignedOut(Run(a, events + [LogoutEvent]))
    decreases |events|
  {
    if events == [] {
      assert events + [LogoutEvent] == [LogoutEvent];
    } else {
      assert (events + [LogoutEvent])[1..] == events[1..] + [LogoutEvent];
      RunEndingInLogout(Step(a, events[0]), events[1..]);
    }
  }

  /** The token check that follows a login with a non-empty token keeps the
      user just logged in: the stored record reads back as that user. An
      empty token is falsy, so the check then drops the user. */
  lemma LoginThenVerify(a: App, token: string, user: User, outcome: Outcome)
    ensures token != "" && outcome.Success? ==>
      Verify(Login(a, token, user), outcome) == Login(a, token, user).(session := Session(Some(token), Some(user), false))
    ensures token != "" && outcome.Failure? ==> SignedOut(Verify(Login(a, token, user), outcome))
    ensures token == "" ==> Verify(Login(a, token, user), outcome).session.user.None?
  {
    var l := Login(a, token, user);
    DecodeIffEncode(Encode(user), user);
    assert Get(l.store, AuthUserKey) == Some(Encode(user));
    assert Encode(user) != [] by {
      assert |QuoteAll(Fields(user))| >= |Quote(user.id)|;
    }
  }
}

=== FILE: text.dfy ===
/** `String.prototype.trim` from JavaScript's runtime, which the comment
    form's guard relies on. */
module Text {

  /** The characters `trim` strips: ECMAScript's WhiteSpace and
      LineTerminator productions. */
  predicate IsWhitespace(c: char) {
    || c == ' ' || c == '\t' || c == '\n' || c == '\r'
    || c == '\U{B}' || c == '\U{C}' || c == '\U{A0}' || c == '\U{1680}'
    || ('\U{2000}' <= c <= '\U{200A}')
    || c == '\U{2028}' || c == '\U{2029}' || c == '\U{202F}'
    || c == '\U{205F}' || c == '\U{3000}' || c == '\U{FEFF}'
  }

  /** True when every character of `s` is whitespace (also when `s` is empty). */
  predicate Blank(s: string) {
    forall i :: 0 <= i < |s| ==> IsWhitespace(s[i])
  }

  /** `s` without its leading whitespace. */
  function TrimStart(s: string): (r: string)
    ensures |r| <= |s| && r == s[|s| - |r|..]
    ensures r == [] || !IsWhitespace(r[0])
    ensures Blank(s[..|s| - |r|])
  {
    if |s| > 0 && IsWhitespace(s[0]) then TrimStart(s[1..]) else s
  }

  /** `s` without its trailing whitespace. */
  function TrimEnd(s: string): (r: string)
    ensures |r| <= |s| && r == s[..|r|]
    ensures r == [] || !IsWhitespace(r[|r| - 1])
    ensures Blank(s[|r|..])
  {
    if |s| > 0 && IsWhitespace(s[|s| - 1]) then
      var r := TrimEnd(s[..|s| - 1]);
      assert s[|r|..] == s[..|s| - 1][|r|..] + [s[|s| - 1]];
      r
    else s
  }

  /** JavaScript's `s.trim()`. */
  function Trim(s: string): (r: string)
    ensures r == [] || (!IsWhitespace(r[0]) && !IsWhitespace(r[|r| - 1]))
    ensures exists i, j :: 0 <= i <= j <= |s| && r == s[i..j] && Blank(s[..i]) && Blank(s[j..])
  {
    var t := TrimStart(s);
    var r := TrimEnd(t);
    var i, j := |s| - |t|, |s| - |t| + |r|;
    assert r == s[i..j];
    assert Blank(s[..i]);
    assert Blank(s[j..]) by {
      assert s[j..] == t[|r|..];
    }
    r
  }

  /** Nothing is left of a blank string once its leading whitespace is gone. */
  lemma {:induction false} BlankTrimStart(s: string)
    requires Blank(s)
    ensures TrimStart(s) == []
  {
    if |s| > 0 {
      assert Blank(s[1..]) by {
        forall i | 0 <= i < |s| - 1
          ensures IsWhitespace(s[1..][i])
        {
          assert s[1..][i] == s[i + 1];
        }
      }
      BlankTrimStart(s[1..]);
    }
  }

  /** `!s.trim()` holds exactly when `s` consists of whitespace only. */
  lemma TrimEmptyIffBlank(s: string)
    ensures Trim(s) == [] <==> Blank(s)
  {
    var k := |s| - |TrimStart(s)|;
    var t := TrimStart(s);
    if Blank(s) {
      BlankTrimStart(s);
    }
    if Trim(s) == [] {
      assert Blank(t) by {
        assert t[|TrimEnd(t)|..] == t;
      }
      assert t == [];
      forall i | 0 <= i < |s|
        ensures IsWhitespace(s[i])
      {
        assert s[..k][i] == s[i];
      }
    }
  }
}

=== FILE: time_ago.dfy ===
/** The relative timestamp shown under each post ("3h", "2d", "45s"). */
module TimeAgo {
  import opened Wrappers
  import Decimal

  datatype Unit = Years | Months | Days | Hours | Minutes | Seconds

  /** Length of one unit in seconds (a year is 365 days, a month 30). */
  function UnitSeconds(u: Unit): nat {
    match u
    case Years => 31536000
    case Months => 2592000
    case Days => 86400
    case Hours => 3600
    case Minutes => 60
    case Seconds => 1
  }

  function Suffix(u: Unit): string {
    match u
    case Years => "y"
    case Months => "mo"
    case Days => "d"
    case Hours => "h"
    case Minutes => "m"
    case Seconds => "s"
  }

  /** Position of a unit in the order the units are tried, coarsest first. */
  function Rank(u: Unit): nat {
    match u
    case Years => 0
    case Months => 1
    case Days => 2
    case Hours => 3
    case Minutes => 4
    case Seconds => 5
  }

  /** The units tried before falling back to seconds, in the order they are tried. */
  const Ladder: seq<Unit> := [Years, Months, Days, Hours, Minutes]

  /** A bucketed age: `count` whole `unit`s. */
  datatype Ago = Ago(count: int, unit: Unit)

  /** Whole seconds between two instants given in milliseconds, rounded
      toward negative infinity as `Math.floor` does. */
  function ElapsedSeconds(nowMs: int, dateMs: int): (s: int)
    ensures s * 1000 <= nowMs - dateMs < (s + 1) * 1000
  {
    (nowMs - dateMs) / 1000
  }

  /** Picks the coarsest unit the age strictly exceeds and counts whole
      units of it; an age of at most a minute (or a negative one, for a
      date in the future) is reported in seconds. */
  function Bucket(seconds: int): (a: Ago)
    ensures a.unit == Seconds <==> seconds <= 60
    ensures a.unit == Seconds ==> a.count == seconds
    ensures a.unit != Seconds ==> seconds > UnitSeconds(a.unit) && a.count >= 1
    ensures a.unit != Seconds ==>
      a.count * UnitSeconds(a.unit) <= seconds < (a.count + 1) * UnitSeconds(a.unit)
    ensures forall u: Unit :: Rank(u) < Rank(a.unit) ==> seconds <= UnitSeconds(u)
  {
    if seconds > 31536000 then Ago(seconds / 31536000, Years)
    else if seconds > 2592000 then Ago(seconds / 2592000, Months)
    else if seconds > 86400 then Ago(seconds / 86400, Days)
    else if seconds > 3600 then Ago(seconds / 3600, Hours)
    else if seconds > 60 then Ago(seconds / 60, Minutes)
    else Ago(seconds, Seconds)
  }

  /** The unit a one-letter suffix names; "mo" is the only longer one. */
  function UnitOf(c: char): Option<Unit> {
    if c == 'y' then Some(Years)
    else if c == 'd' then Some(Days)
    else if c == 'h' then Some(Hours)
    else if c == 'm' then Some(Minutes)
    else if c == 's' then Some(Seconds)
    else None
  }

  /** Splits a shown age into the text before its unit suffix and the unit. */
  function SplitUnit(s: string): Option<(string, Unit)> {
    if |s| >= 2 && s[|s| - 2..] == "mo" then Some((s[..|s| - 2], Months))
    else if |s| >= 1 && UnitOf(s[|s| - 1]).Some? then Some((s[..|s| - 1], UnitOf(s[|s| - 1]).value))
    else None
  }

  /** Reads a shown age back: a decimal count followed by a unit suffix. */
  function ParseAgo(s: string): Option<Ago> {
    match SplitUnit(s)
    case None => None
    case Some((count, u)) =>
      match Decimal.ParseInt(count)
      case Some(n) => Some(Ago(n, u))
      case None => None
  }

  /** The text shown: the count in decimal followed by the unit's suffix,
      which reads back as the same age. */
  function Render(a: Ago): (r: string)
    ensures |r| > |Suffix(a.unit)| && r[|r| - |Suffix(a.unit)|..] == Suffix(a.unit)
    ensures a.count >= 0 ==>
      Decimal.AllDigits(r[..|r| - |Suffix(a.unit)|]) && Decimal.DigitsValue(r[..|r| - |Suffix(a.unit)|]) == a.count
    ensures Decimal.Canonical(r[..|r| - |Suffix(a.unit)|])
    ensures ParseAgo(r) == Some(a)
  {
    var digits := Decimal.IntToString(a.count);
    var r := digits + Suffix(a.unit);
    SplitSuffix(digits, a.unit);
    assert r[..|r| - |Suffix(a.unit)|] == digits;
    assert r[|r| - |Suffix(a.unit)|..] == Suffix(a.unit);
    r
  }

  /** A suffix appended to a count's text is split off again. */
  lemma SplitSuffix(digits: string, u: Unit)
    ensures SplitUnit(digits + Suffix(u)) == Some((digits, u))
  {
    match u
    case Months =>
      var r := digits + "mo";
      assert r[|r| - 2..] == "mo";
      assert r[..|r| - 2] == digits;
    case Years => SplitLetter(digits, 'y', u);
    case Days => SplitLetter(digits, 'd', u);
    case Hours => SplitLetter(digits, 'h', u);
    case Minutes => SplitLetter(digits, 'm', u);
    case Seconds => SplitLetter(digits, 's', u);
  }

  /** The one-letter case of `SplitSuffix`. */
  lemma SplitLetter(digits: string, c: char, u: Unit)
    requires UnitOf(c) == Some(u)
    ensures SplitUnit(digits + [c]) == Some((digits, u))
  {
    var r := digits + [c];
    assert r[..|r| - 1] == digits;
    if |r| >= 2 {
      assert r[|r| - 2..][1] == c;
    }
  }

  /** `timeAgo(date)` evaluated at the instant `nowMs`: the text reads as a
      count of the coarsest unit the elapsed whole seconds strictly exceed,
      the count bracketing the age; at most a minute reads as the seconds
      themselves. */
  function TimeAgo(nowMs: int, dateMs: int): (r: string)
    ensures ParseAgo(r).Some? && r == Render(ParseAgo(r).value)
    ensures var s := ElapsedSeconds(nowMs, dateMs);
            var a := ParseAgo(r).value;
            && (a.unit == Seconds <==> s <= 60)
            && (a.unit == Seconds ==> a.count == s)
            && (a.unit != Seconds ==>
                  a.count >= 1 && a.count * UnitSeconds(a.unit) <= s < (a.count + 1) * UnitSeconds(a.unit))
            && (forall u: Unit :: Rank(u) < Rank(a.unit) ==> s <= UnitSeconds(u))
  {
    Render(Bucket(ElapsedSeconds(nowMs, dateMs)))
  }

  /** The first unit of `units` that `seconds` strictly exceeds. */
  function FirstExceeded(seconds: int, units: seq<Unit>): (r: Option<Unit>)
    ensures r.Some? ==> r.value in units && seconds > UnitSeconds(r.value)
    ensures r.None? ==> forall i :: 0 <= i < |units| ==> seconds <= UnitSeconds(units[i])
  {
    if units == [] then None
    else if seconds > UnitSeconds(units[0]) then Some(units[0])
    else FirstExceeded(seconds, units[1..])
  }

  /** Reference reading of the bucketing as a scan of the unit table. */
  function BucketByTable(seconds: int): Ago {
    match FirstExceeded(seconds, Ladder)
    case Some(u) => Ago(seconds / UnitSeconds(u), u)
    case None => Ago(seconds, Seconds)
  }

  /** The chain of comparisons is the table scan. */
  lemma BucketIsTableScan(seconds: int)
    ensures Bucket(seconds) == BucketByTable(seconds)
  {
    var minutes := FirstExceeded(seconds, [Minutes]);
    assert [Minutes][1..] == [];
    var hours := FirstExceeded(seconds, [Hours, Minutes]);
    assert [Hours, Minutes][1..] == [Minutes];
    var days := FirstExceeded(seconds, [Days, Hours, Minutes]);
    assert [Days, Hours, Minutes][1..] == [Hours, Minutes];
    var months := FirstExceeded(seconds, [Months, Days, Hours, Minutes]);
    assert [Months, Days, Hours, Minutes][1..] == [Days, Hours, Minutes];
    assert Ladder[1..] == [Months, Days, Hours, Minutes];
  }

  /** An older date never gets a finer unit, and within one unit never a
      smaller count. */
  lemma BucketMonotone(s1: int, s2: int)
    requires s1 <= s2
    ensures Rank(Bucket(s2).unit) <= Rank(Bucket(s1).unit)
    ensures Bucket(s1).unit == Bucket(s2).unit ==> Bucket(s1).count <= Bucket(s2).count
  {
    var u := Bucket(s1).unit;
    if u == Bucket(s2).unit && u != Seconds {
      var n := UnitSeconds(u);
      assert Bucket(s1).count == s1 / n && Bucket(s2).count == s2 / n;
      DivMonotone(s1, s2, n);
    }
  }

  lemma DivMonotone(a: int, b: int, n: int)
    requires a <= b && n > 0
    ensures a / n <= b / n
  {
    assert (a / n) * n <= a;
    assert b < (b / n + 1) * n;
    MulCancel(a / n, b / n + 1, n);
  }

  lemma MulCancel(x: int, y: int, n: int)
    requires n > 0 && x * n < y * n
    ensures x < y
  {
    assert (y - x) * n == y * n - x * n;
  }
}

=== FILE: user_codec.dfy ===
/** The signed-in user record and the text form it takes in the browser's
    key/value store. The application writes `JSON.stringify(user)` and
    reads it back with `JSON.parse`; here that text form is a sequence of
    five quoted fields, which keeps the one property the application
    relies on: reading back what was written yields the same record, and
    text that is not such a record is rejected (as `JSON.parse` throws). */
module UserCodec {
  import opened Wrappers

  datatype User = User(id: string, username: string, fullName: string, profilePic: string, bio: string)

  /** The placeholder account the token check falls back to when the store
      holds a token but no user record. */
  const FallbackUser: User := User(
    "user123", "sample_user", "Sample User",
    "https://placehold.co/150x150/EFEFEF/grey?text=User", "This is a sample bio.")

  function EscapeChar(c: char): string {
    if c == '"' || c == '\\' then ['\\', c] else [c]
  }

  function Escape(s: string): string {
    if s == [] then [] else EscapeChar(s[0]) + Escape(s[1..])
  }

  function Quote(s: string): string {
    ['"'] + Escape(s) + ['"']
  }

  /** Reads the inside of a quoted field: the unescaped text up to the
      closing quote, and what follows that quote. Only `\"` and `\\` are
      accepted as escapes. */
  function ReadBody(s: string): Option<(string, string)>
    decreases |s|
  {
    if s == [] then None
    else if s[0] == '"' then Some(([], s[1..]))
    else if s[0] == '\\' then
      if |s| >= 2 && (s[1] == '"' || s[1] == '\\') then
        match ReadBody(s[2..])
        case None => None
        case Some((f, rest)) => Some(([s[1]] + f, rest))
      else None
    else
      match ReadBody(s[1..])
      case None => None
      case Some((f, rest)) => Some(([s[0]] + f, rest))
  }

  /** Reads one quoted field from the front of `s`. */
  function ReadQuoted(s: string): Option<(string, string)> {
    if s != [] && s[0] == '"' then ReadBody(s[1..]) else None
  }

  /** The fields of a record, in the order they are written. */
  function Fields(u: User): seq<string> {
    [u.id, u.username, u.fullName, u.profilePic, u.bio]
  }

  function QuoteAll(fs: seq<string>): string {
    if fs == [] then [] else Quote(fs[0]) + QuoteAll(fs[1..])
  }

  /** Reads exactly `n` quoted fields that make up all of `s`. */
  function ReadAll(s: string, n: nat): (r: Option<seq<string>>)
    ensures r.Some? ==> |r.value| == n
    decreases n
  {
    if n == 0 then
      if s == [] then Some([]) else None
    else
      match ReadQuoted(s)
      case None => None
      case Some((f, rest)) =>
        match ReadAll(rest, n - 1)
        case None => None
        case Some(fs) => Some([f] + fs)
  }

  /** The stored text of a user record (`JSON.stringify(user)`). */
  function Encode(u: User): string {
    QuoteAll(Fields(u))
  }

  /** The record a stored text denotes, or `None` where `JSON.parse` would throw. */
  function Decode(s: string): Option<User> {
    match ReadAll(s, 5)
    case None => None
    case Some(fs) => Some(User(fs[0], fs[1], fs[2], fs[3], fs[4]))
  }

  /** An escaped body followed by a closing quote reads back as the original text. */
  lemma {:induction false} ReadBodyEscape(f: string, rest: string)
    ensures ReadBody(Escape(f) + ['"'] + rest) == Some((f, rest))
    decreases |f|
  {
    var s := Escape(f) + ['"'] + rest;
    if f == [] {
      assert s == ['"'] + rest;
    } else {
      var c := f[0];
      ReadBodyEscape(f[1..], rest);
      assert s == EscapeChar(c) + (Escape(f[1..]) + ['"'] + rest);
      assert [c] + f[1..] == f;
    }
  }

  /** Whatever a field body reads as, the body was exactly its escaped form. */
  lemma {:induction false} ReadBodyExact(s: string, f: string, rest: string)
    requires ReadBody(s) == Some((f, rest))
    ensures s == Escape(f) + ['"'] + rest
    decreases |s|
  {
    if s[0] == '"' {
      assert f == [];
    } else if s[0] == '\\' {
      var (f', rest') := ReadBody(s[2..]).value;
      ReadBodyExact(s[2..], f', rest');
      assert f == [s[1]] + f';
      assert f[1..] == f';
      assert s == [s[0], s[1]] + s[2..];
    } else {
      var (f', rest') := ReadBody(s[1..]).value;
      ReadBodyExact(s[1..], f', rest');
      assert f == [s[0]] + f';
      assert f[1..] == f';
      assert s == [s[0]] + s[1..];
    }
  }

  /** A quoted field is read back from the front of any text: both directions. */
  lemma ReadQuotedIff(s: string, f: string, rest: string)
    ensures ReadQuoted(s) == Some((f, rest)) <==> s == Quote(f) + rest
  {
    if s == Quote(f) + rest {
      assert s[1..] == Escape(f) + ['"'] + rest;
      ReadBodyEscape(f, rest);
    }
    if ReadQuoted(s) == Some((f, rest)) {
      ReadBodyExact(s[1..], f, rest);
      assert s == [s[0]] + s[1..];
    }
  }

  /** A run of quoted fields reads back as those fields, and nothing else does. */
  lemma {:induction false} ReadAllIff(s: string, fs: seq<string>)
    ensures ReadAll(s, |fs|) == Some(fs) <==> s == QuoteAll(fs)
    decreases |fs|
  {
    if fs != [] {
      if s == QuoteAll(fs) {
        ReadQuotedIff(s, fs[0], QuoteAll(fs[1..]));
        ReadAllIff(QuoteAll(fs[1..]), fs[1..]);
        assert [fs[0]] + fs[1..] == fs;
      }
      if ReadAll(s, |fs|) == Some(fs) {
        var (f, rest) := ReadQuoted(s).value;
        var tail := ReadAll(rest, |fs| - 1).value;
        assert [f] + tail == fs;
        assert f == fs[0] && tail == fs[1..];
        ReadQuotedIff(s, f, rest);
        ReadAllIff(rest, fs[1..]);
      }
    }
  }

  /** Reading the stored text back gives the record that was written,
      and the only text that reads as a given record is its encoding. */
  lemma DecodeIffEncode(s: string, u: User)
    ensures Decode(s) == Some(u) <==> s == Encode(u)
  {
    ReadAllIff(s, Fields(u));
    if Decode(s) == Some(u) {
      var fs := ReadAll(s, 5).value;
      assert fs == Fields(u);
    }
  }
}

=== FILE: wrappers.dfy ===
/** Small value types shared by every module of the model. */
module Wrappers {

  /** A JavaScript value that may be `null`: `None` stands for `null`. */
  datatype Option<+T> = None | Some(value: T)

  /** How a remote call settles: the awaited promise resolves, or it
      rejects and control enters the `catch` block. */
  datatype Outcome = Success | Failure
}
